=== FILE: README.md ===
# Montana AI chat: usage gate, conversations, reply aggregation and relay

A Dafny model of the logic at the core of a single-page chat front-end and
the serverless function that relays its messages to a chat-completion
provider. Everything is written as pure functions over immutable data. The
clock, the network and the JSON parser are inputs, not effects.

- `UsageGate` (`usage_gate.dfy`): the per-session usage limit. It counts
  completed requests, starts a 30-minute cooldown when the count reaches
  5, and runs a one-second countdown that ends the cooldown and resets
  the count. A password lifts the limit for the rest of the session. It
  also holds the `m:ss` rendering of the countdown. `IsLocked` is the
  application's `isCurrentlyLocked` (`src/App.js:146`, `src/App.js:590`):
  the limit is in force and the cooldown ends after `now`.
- `Conversations` (`conversations.dfy`): the conversation list. It covers
  selecting, starting, renaming and deleting conversations, keeping the
  "active" flag consistent. It also maps messages to the `user` and
  `assistant` roles of a completion request.
- `ApiClient` (`api_client.dfy`): the browser's call to the relay. It
  maps an HTTP outcome to a `{success, data, error}` record. It
  reassembles a `text/event-stream` body line by line, chunk by chunk,
  into one reply. `LineText`, `LinesText`, `ChunkText` and `StreamText`
  define that reply for one line, a chunk's lines, one chunk and the whole
  stream (the reading loop of `src/services/api.js:34-58`).
- `SendMessage` (`send_message.dfy`): one send as a sequential step. It
  covers the guard, the request built from the active conversation, the
  AI turn made from the result, and the gate bookkeeping after the call.
  It also models submitting the chat page's input.
- `ChatPage` (`chat_page.dfy`): the chat page's own decisions. These are
  the submit guard, the placeholder priority, language detection and
  newline stripping in the code renderer, and skipping a message with no
  text.
- `Proxy` (`proxy.dfy`): the relay function as an ordered decision. The
  method check comes first, then the key, then the body. After those
  comes the provider's answer, which yields the status code and body.
- `Text` (`text.dfy`) and `Wrappers` (`wrappers.dfy`) hold the JavaScript
  string built-ins the code relies on (`trim`, `startsWith`, `includes`,
  `split`, decimal rendering) and `Option`/`Result`.

Modelling choices:

- **Time.** Times are natural numbers of milliseconds. A cooldown end is
  always `now + 1800000`, which is positive, so the code's truthiness test
  on it (`!!cooldownEndTime`) coincides with "is set". `Math.ceil(d/1000)`
  for `d > 0` is `(d + 999) / 1000` on integers.
- **Abstract parsers.** `JSON.parse` and the property path
  `choices[0]?.delta?.content || ''` are a parameter of type
  `DeltaParser`. It returns `None` for a record that throws, `Some(None)`
  for a missing or falsy delta, and `Some(Some(d))` for a delta.
  `response.json()` (`JsonReader`) and the relay's body parse
  (`BodyParse`) are parameters in the same way.
- **Stream input.** A response body arrives as a sequence of
  already-decoded text chunks. Each chunk is split on `\n` on its own, as
  the code does, so a record cut across two chunks is lost
  (`ApiClient.SplitRecordIsLost`).
- **Calls as parameters.** The call to the relay (`SendMessage`) and the
  call to the provider (`Proxy`) are function parameters. Their results
  are inputs.

Three behaviours a reader might expect are not in the code. The model
follows the code:

- **Non-stream OK body.** The parsed object is returned as it is. No
  `choices[0].message.content` is extracted from it.
- **Non-OK error text.** It is `Error <status>: <body>`, or
  `Sin detalles` when the body is empty. The body is not truncated and no
  JSON error message is extracted from it.
- **Reply in flight.** There is no per-conversation in-flight marker,
  only the application-wide `isAiResponding` flag.

An expired cooldown should reset the count before an attempt is counted.
The code does not do this: only the one-second countdown resets it. See
Findings.

## Model

| member | source | states |
|---|---|---|
| Text.Trim | src/components/ChatPage.js:198-199 | `trim` returns a contiguous slice of the input with no whitespace at either end, and everything cut away is whitespace |
| Text.TrimEmptyIffWhitespace | src/components/ChatPage.js:198 | `!input.trim()` holds exactly when the input is whitespace only |
| Text.SplitJoin | src/services/api.js:42 | splitting a chunk on `\n` loses and invents nothing: joining the lines back gives the chunk |
| Text.NatToString | src/services/api.js:23 | the decimal rendering of a status or a minute count is digits only, has no leading zero, and denotes the number |
| UsageGate.TimeLeft | src/App.js:45-48 | the countdown is zero exactly when the cooldown end is not after `now`; otherwise it is the least whole number of seconds covering the remaining milliseconds |
| UsageGate.LockedIffCountdownPositive | src/App.js:43-50 | with a cooldown set and the limit in force, sends are refused exactly while the countdown shows a positive number of seconds |
| UsageGate.RecordAttempt | src/App.js:211-221 | after a completed call with the limit in force, the count grows by one; the cooldown is set to `now + 30*60*1000` exactly when the new count reaches 5 and is otherwise untouched; when unlocked nothing changes |
| UsageGate.LimitStartsCooldown | src/App.js:146-147 | the attempt that reaches the limit locks the gate at every instant before `now + 30 min` and not at that instant: a cooldown ending exactly at `now` is over |
| UsageGate.Tick | src/App.js:46-56 | a countdown step clears the cooldown and resets the count to 0 exactly when the cooldown end is not after `now`, and otherwise changes nothing; the seconds it shows are `TimeLeft(cooldownEnd, now)`, the rounded-up remaining seconds, positive exactly when the gate is locked |
| UsageGate.TickKeepsLock | src/App.js:43-56 | a countdown step never changes whether sends are refused at that instant |
| UsageGate.Unlock | src/App.js:227-238 | the right password yields unlocked, no cooldown, count 0 whatever the prior state; a wrong password or a cancelled prompt leaves the gate unchanged and is reported as such |
| UsageGate.UnlockedNeverLocks | src/App.js:212 | after a successful unlock no send is refused and completed calls are not counted |
| UsageGate.RecordAttemptKeepsInv | src/App.js:211-221 | an attempt admitted by the lock check, on a gate whose expired cooldown the countdown has already cleared, keeps the count within the limit |
| UsageGate.StaleWindowExceedsLimit | src/App.js:146-147 | a gate at the limit whose cooldown ended exactly now is not locked, and counting the attempt takes the count to 6 |
| UsageGate.Expire | src/App.js:50-53 | an expired cooldown is cleared with the count reset to 0 and nothing else changed; any other gate is left as it is; whether the gate is locked does not change |
| UsageGate.RecordAttemptFresh | src/App.js:211-221 | with an expired cooldown pending, the attempt is counted from a reset gate and leaves count 1 with no cooldown and the limit in force; otherwise it equals the as-written bookkeeping; an admitted attempt keeps the gate in its invariant |
| UsageGate.InitialInv | src/App.js:31-33 | a session starts with count 0, no cooldown and the limit in force, a state inside the invariant that `RunKeepsInv` preserves |
| UsageGate.RunKeepsInv | src/App.js:50-53 | with the corrected bookkeeping (an expired cooldown cleared before an attempt is counted), over any session of admitted sends, countdown steps and unlock prompts, the count never exceeds 5 while the limit is in force; the code as written does not keep this bound (Findings) |
| UsageGate.PadSeconds | src/App.js:247-248 | the seconds below a minute as exactly two digits, a leading `0` below ten, whose value is the input |
| UsageGate.FormatTimeLeft | src/App.js:244-249 | `0:00` for no time; otherwise the minutes, a colon and exactly two seconds digits below 60 that together denote the input |
| Conversations.FindActive | src/App.js:152 | finds the first active conversation, and finds none exactly when none is active |
| Conversations.SelectConversation | src/App.js:68-77 | selecting marks active exactly the conversations with that id and changes nothing else |
| Conversations.SelectLeavesOneActive | src/App.js:68-74 | with distinct ids, selecting an existing id leaves exactly that conversation active, and it is the one the page shows |
| Conversations.StartNewChat | src/App.js:80-93 | the new chat with its greeting goes first and is the only active one; the others follow in order, deactivated and otherwise unchanged |
| Conversations.RenamedTitle | src/App.js:110 | the stored title is the trimmed input, or `Conversación sin título` when the input is whitespace only; it is never empty |
| Conversations.SaveRename | src/App.js:107-115 | exactly the conversations with that id get the new title; the others are unchanged |
| Conversations.RenameKeepsAllButTitles | src/App.js:107-112 | renaming touches titles only |
| Conversations.Remaining | src/App.js:120 | the survivors of a deletion are exactly the conversations with another id |
| Conversations.RemainingAppend | src/App.js:120 | filtering distributes over concatenation, so the survivors keep their order |
| Conversations.DeleteConversation | src/App.js:118-141 | the survivors are kept in order and only the first one's active flag may change; a non-empty result has an active conversation; the home tab is shown exactly when nothing is left |
| Conversations.DeleteRemovesExactlyId | src/App.js:120 | deletion removes every conversation with that id and keeps every other one |
| Conversations.DeleteInactiveKeepsOthers | src/App.js:137-139 | deleting an inactive conversation while another is active returns the survivors unchanged and leaves the tab alone |
| Conversations.RemainingKeepsAtMostOneActive | src/App.js:120 | filtering out one id never leaves two active conversations where there was at most one |
| Conversations.DeletedActiveLeavesNone | src/App.js:120-124 | when the deleted id was the active conversation, no survivor is active, which is why the first survivor is activated |
| Conversations.DeleteKeepsOneActive | src/App.js:123-136 | from at most one active conversation, deletion leaves at most one, and exactly one when any remain |
| Conversations.ToApiMessages | src/App.js:183-186 | the request has one entry per message in order, with the message text as content, the AI's turns as `assistant` and the user's as `user` |
| Conversations.ApiMessagesRoundTrip | src/App.js:183-186 | each message's sender and text can be read back from its request entry |
| ApiClient.Payload | src/services/api.js:44-45 | a line has a payload exactly when it starts with `data: `, and the payload is what follows those six characters |
| ApiClient.LinesTextIsDeltas | src/services/api.js:42-53 | a chunk's reply is the in-order concatenation of the deltas of its `data: ` records other than `[DONE]` |
| ApiClient.SilentLines | src/services/api.js:44-56 | a line without the prefix, the `[DONE]` record, a malformed record and a record without a delta all contribute nothing |
| ApiClient.SilentLineDoesNotStop | src/services/api.js:50-56 | a silent line does not stop the scan: the later lines of its chunk still contribute |
| ApiClient.SilentLineDoesNotStopStream | src/services/api.js:34-56 | a silent line does not stop the later chunks from contributing |
| ApiClient.StreamTextAppend | src/services/api.js:34-43 | the reply to a concatenated chunk sequence is the concatenation of the replies to its parts |
| ApiClient.TwoRecordStream | src/services/api.js:42-53 | records `A`, `B` and `[DONE]`, each in its own chunk, yield `AB` |
| ApiClient.SplitRecordIsLost | src/services/api.js:39-43 | a record yields its delta when whole, and nothing when cut across two chunks |
| ApiClient.ScanLines | src/services/api.js:43-58 | the inner loop appends exactly the chunk's reply to the text accumulated so far |
| ApiClient.AggregateStream | src/services/api.js:31-59 | the reading loop returns the stream's reply, which is the concatenation of each chunk's own reply |
| ApiClient.Failed | src/services/api.js:71-81 | a caught error gives a failure with no data: the error text is the error's message, or `Error de conexión con el asistente` when the message is empty |
| ApiClient.HttpErrorMessageParts | src/services/api.js:21-23 | the non-OK error text is `Error `, the status in decimal, `: `, then the body or `Sin detalles` when the body is empty |
| ApiClient.SendMessageToAI | src/services/api.js:9-83 | a non-OK status is a failure carrying the body; an OK event stream is always a success carrying the aggregated reply; another OK body is the parsed object as it is; a thrown error is a failure |
| SendMessage.AiMessageFor | src/App.js:189-199 | the AI turn is never empty; it is a normal turn exactly when the result is a success with non-empty data, and then carries that data; otherwise it is an error turn with the result's error text or a fixed one |
| SendMessage.EmptyStreamShowsError | src/App.js:189-192 | an event stream with no delta is a success for the client but shows as an error turn with the fixed text |
| SendMessage.ClientFailureShown | src/App.js:191-192 | every failure the client reports reaches the conversation as an error turn with its own text |
| SendMessage.AppendTo | src/App.js:161-167 | messages are appended to exactly the conversations with the given id |
| SendMessage.HandleSendMessage | src/App.js:145-222 | a send while locked, while a reply is pending or with no active conversation changes nothing and makes no call; otherwise the active history plus the user message is sent, both turns are appended, and the completed attempt is counted by the `finally` bookkeeping as written, with no reset of an expired cooldown |
| SendMessage.RequestEndsWithUserText | src/App.js:183-186 | the request is the active conversation's history in order, followed by the new text as a user turn |
| SendMessage.SendKeepsGateInv | src/App.js:146-150 | as written, a send keeps the count within the limit when no expired cooldown is waiting for the countdown at the instant the call completes |
| SendMessage.SendInStaleWindowExceedsLimit | src/App.js:146-147 | as written, a send at the instant a cooldown ends, before the countdown has run, is admitted and leaves the count at 6 with a new cooldown |
| SendMessage.HandleSendMessageFresh | src/App.js:145-222 | the corrected send: the same request and conversations as the send as written, with the attempt counted after an expired cooldown is cleared |
| SendMessage.SendFreshKeepsGateInv | src/App.js:146-150 | with the corrected bookkeeping, every send keeps the count within the limit, whenever the countdown last ran |
| SendMessage.SendTouchesOnlyActive | src/App.js:202-208 | only conversations with the active one's id change, each gaining the user message and then an AI turn |
| SendMessage.Submit | src/App.js:590 | submitting a blank input, or any input while the gate is locked or a reply is pending, changes nothing and keeps the input; an allowed non-blank submit sends exactly the trimmed input through `HandleSendMessage` and clears the input box |
| ChatPage.HandleSend | src/components/ChatPage.js:195-200 | nothing happens while locked, while a reply is pending or for a blank input; otherwise the trimmed, non-blank input is sent once and the input is cleared |
| ChatPage.Placeholder | src/components/ChatPage.js:248 | the placeholder follows the priority locked, then waiting for a reply, then the default |
| ChatPage.CodeLanguage | src/components/ChatPage.js:87 | the language is the maximal word after the leftmost `language-` that is followed by a word character; there is none exactly when no such position exists |
| ChatPage.LanguageOfPlainClass | src/components/ChatPage.js:87 | the class `language-<word>` names `<word>` |
| ChatPage.StripTrailingNewline | src/components/ChatPage.js:92 | highlighted code drops at most one final newline, only when there is one, and is otherwise unchanged |
| ChatPage.RenderCode | src/components/ChatPage.js:84-104 | code is highlighted exactly when its class names a language, and the highlighted text is the children with exactly one final newline dropped when there is one; otherwise it is rendered inline and verbatim |
| ChatPage.RenderMessage | src/components/ChatPage.js:47-50 | a missing message or one without `text` renders nothing; a null text renders an empty bubble |
| Proxy.Handler | netlify/functions/deepseek-chat.js:9-103 | a non-POST method gets 405 with `Allow: POST`; a missing key gets 500; a bad body gets 400; none of these calls the provider; otherwise provider OK relays its JSON with 200, non-OK passes its status with the prefixed text, and a throw gets 500 |
| Proxy.MethodCheckedFirst | netlify/functions/deepseek-chat.js:11-17 | for any method other than POST the outcome is the same whatever the key, body and provider |
| Proxy.KeyCheckedBeforeBody | netlify/functions/deepseek-chat.js:20-29 | a POST whose key is missing or empty gets 500 whatever the body and provider |
| Proxy.RejectedWithoutCall | netlify/functions/deepseek-chat.js:33-47 | a request answered without calling the provider gets 405, 500 or 400 with an error body |
| Proxy.UpstreamStatusPassedThrough | netlify/functions/deepseek-chat.js:69-80 | a provider error status is passed through, with the provider's text behind `Error al contactar la IA: ` |

## Findings

| source | as written | input that shows it | evidently intended | confidence | as-written member | corrected member |
|---|---|---|---|---|---|---|
| src/App.js:146-147 | the lock check treats a cooldown as over once `cooldownEnd <= now`, but only the one-second countdown resets the count, so a send between the cooldown's end and the next countdown step is admitted with the count still at 5 | gate `count=5, cooldownEnd=T`, send completing at `T` before the countdown step: the count becomes 6 and a new 30-minute cooldown starts after a single message | an expired cooldown resets the count before the attempt is counted, so the count never exceeds 5 | medium (the window is at most one countdown period; through the chat page it also needs an App re-render after the cooldown ends, since the page's lock flag is computed at render time); not executed | UsageGate.StaleWindowExceedsLimit, SendMessage.SendInStaleWindowExceedsLimit | UsageGate.RecordAttemptFresh, SendMessage.HandleSendMessageFresh |

`UsageGate.RecordAttempt` and `SendMessage.HandleSendMessage` are the
code as written. `SendMessage.SendKeepsGateInv` holds for them only when
no expired cooldown is pending when the call completes.
`SendMessage.HandleSendMessageFresh` and the session model behind
`UsageGate.RunKeepsInv` use the corrected `UsageGate.RecordAttemptFresh`,
and keep the bound with no such condition.

## Left out

- SendMessage.Submit: takes the page's lock flag as `UsageGate.IsLocked`
  at the instant of the submit. The application computes that flag when
  it renders (`src/App.js:590`), so between renders the page can still
  refuse a send that the clock would allow, keeping the input. The model
  does not represent render timing.
- SendMessage.SendKeepsGateInv: requires that no expired cooldown is
  pending when the call completes. The code as written breaks the bound
  without that condition (`SendMessage.SendInStaleWindowExceedsLimit`).
  The unconditional bound is proved for the corrected send,
  `SendMessage.SendFreshKeepsGateInv`.
- Rendering: React rendering, JSX, animation, Markdown and
  syntax-highlighting libraries, and message timestamps shown as clock
  times. These are UI and foreign calls. The code renderer and the
  message check are modelled down to the values they hand to those
  libraries.
- Timer scheduling: `setInterval`/`useEffect` scheduling and
  `Date.now()`. The countdown is the explicit step `UsageGate.Tick`, and
  clock readings are parameters.
- UsageGate.Tick: the effect starts the interval only when the cooldown
  is still in the future at that moment. Every cooldown is set 30 minutes
  ahead, so the model lets the countdown run whenever a cooldown is set.
  The `showCooldownMessage` display flag is not modelled.
- React state interleavings: asynchronous `setState` interleavings,
  including the stale `messageCount` and `isUnlocked` captured at
  `src/App.js:212-213`. A send is one sequential step.
- Shared-object mutation at `src/App.js:124`: the in-place flag change is
  modelled as activating a copy of the first survivor.
- Network and parsing: `fetch`, `TextDecoder`, stream readers and
  `JSON.parse`. These are network I/O and foreign calls, replaced by
  input datatypes and parser parameters. An error thrown while reading
  the stream is caught by the same `catch` as a thrown `fetch`, which
  `FetchOutcome.Threw` already covers.
- ApiClient.SendMessageToAI: a failure record's `data: {text: …}` apology
  object is not carried. The application reads `data` only when `success`
  is true.
- ApiClient.SendMessageToAI: the choice of endpoint URL by `NODE_ENV` is
  configuration, not logic.
- Dialogs and logging: `prompt`, `alert` and `console` calls. These are
  I/O. The prompt's answer is the `Option<string>` input of `Unlock`.
- Rename editing and tab state: `startRename`, `cancelRename`,
  `handleRenameChange`, the sidebar toggle, and the tab switches and
  rename reset in `selectConversation` and `startNewChat`. These are UI
  editing state. The typed title is the input of `SaveRename`.
- Page mechanics: the chat page's invalid-conversation pane, scrolling and
  textarea resizing. These are UI.
- Proxy.Handler: the provider's OK body is relayed as one string, which
  stands for `JSON.stringify(await response.json())`. An unreadable OK
  body falls into the same `catch` as a network error, so it is
  `UpThrew`.
- `server.js`: the Express/CORS bootstrap and SDK call. This thin wrapper
  is not part of this model; its only logic prepends a system message.
- `hooks/useFetchData.js`: a fetch hook with no logic of its own. It is
  not part of this model.

=== FILE: api_client.dfy ===
/**
 * The client call to the chat proxy: the mapping of an HTTP outcome to a
 * result record, and the reassembly of an event-stream body into one reply.
 * The network, the byte decoder and `JSON.parse` are not modelled: the
 * response arrives as already-decoded text chunks, and the two parses are
 * parameters.
 */
module ApiClient {
  import opened Wrappers
  import opened Text

  const DATA_PREFIX: string := "data: "
  const DONE: string := "[DONE]"
  const EVENT_STREAM: string := "text/event-stream"
  const NO_DETAILS: string := "Sin detalles"
  const CONNECTION_ERROR: string := "Error de conexión con el asistente"

  /** `JSON.parse(payload).choices[0]?.delta?.content || ''` as an abstract
      function: `None` when the parse or the property access throws,
      `Some(None)` when the content is missing or falsy, `Some(Some(d))` for
      the delta `d`. */
  type DeltaParser = string -> Option<Option<string>>

  /** The payload of an event-stream line: what follows `data: `, if the
      line starts with it. */
  function Payload(line: string): (p: Option<string>)
    ensures p.Some? <==> StartsWith(line, DATA_PREFIX)
    ensures p.Some? ==> line == DATA_PREFIX + p.value
  {
    if StartsWith(line, DATA_PREFIX) then Some(line[|DATA_PREFIX|..]) else None
  }

  /** The delta a payload other than the end sentinel contributes:
      a malformed record or a missing delta contributes nothing. */
  function DeltaOf(payload: string, parse: DeltaParser): string {
    match parse(payload)
    case Some(d) => d.GetOr("")
    case None => ""
  }

  /** What one line of a chunk adds to the reply. */
  function LineText(line: string, parse: DeltaParser): string {
    match Payload(line)
    case Some(data) => if data == DONE then "" else DeltaOf(data, parse)
    case None => ""
  }

  /** The text contributed by a sequence of lines, in order. */
  function LinesText(lines: seq<string>, parse: DeltaParser): string {
    if |lines| == 0 then "" else LineText(lines[0], parse) + LinesText(lines[1..], parse)
  }

  /** One chunk is split on newlines on its own. */
  function ChunkText(chunk: string, parse: DeltaParser): string {
    LinesText(Split(chunk, '\n'), parse)
  }

  /** The reply accumulated from a whole stream of chunks. */
  function StreamText(chunks: seq<string>, parse: DeltaParser): string {
    if |chunks| == 0 then "" else ChunkText(chunks[0], parse) + StreamText(chunks[1..], parse)
  }

  lemma {:induction false} LinesTextAppend(a: seq<string>, b: seq<string>, parse: DeltaParser)
    ensures LinesText(a + b, parse) == LinesText(a, parse) + LinesText(b, parse)
    decreases |a|
  {
    if |a| == 0 {
      assert a + b == b;
    } else {
      assert (a + b)[1..] == a[1..] + b;
      LinesTextAppend(a[1..], b, parse);
    }
  }

  /** Chunks are independent: the reply to a concatenated stream is the
      concatenation of the replies to its parts. */
  lemma {:induction false} StreamTextAppend(a: seq<string>, b: seq<string>, parse: DeltaParser)
    ensures StreamText(a + b, parse) == StreamText(a, parse) + StreamText(b, parse)
    decreases |a|
  {
    if |a| == 0 {
      assert a + b == b;
    } else {
      assert (a + b)[1..] == a[1..] + b;
      StreamTextAppend(a[1..], b, parse);
    }
  }

  /** The records that carry a delta: the payloads of the `data: ` lines,
      without the end sentinel, in order. */
  function DataRecords(lines: seq<string>): (r: seq<string>)
    ensures |r| <= |lines|
    ensures forall p :: p in r ==> p != DONE && DATA_PREFIX + p in lines
  {
    if |lines| == 0 then []
    else
      var rest := DataRecords(lines[1..]);
      match Payload(lines[0])
      case Some(p) => if p == DONE then rest else [p] + rest
      case None => rest
  }

  /** The deltas of a sequence of records, concatenated in order. */
  function DeltasText(records: seq<string>, parse: DeltaParser): string {
    if |records| == 0 then "" else DeltaOf(records[0], parse) + DeltasText(records[1..], parse)
  }

  /** The reply is exactly the in-order concatenation of the deltas of the
      `data: ` records other than the sentinel; no other line counts. */
  lemma {:induction false} LinesTextIsDeltas(lines: seq<string>, parse: DeltaParser)
    ensures LinesText(lines, parse) == DeltasText(DataRecords(lines), parse)
    decreases |lines|
  {
    if |lines| > 0 {
      LinesTextIsDeltas(lines[1..], parse);
      var rest := DataRecords(lines[1..]);
      match Payload(lines[0])
      case Some(p) =>
        if p != DONE {
          assert ([p] + rest)[1..] == rest;
        }
      case None =>
    }
  }

  /** A line that is not a `data: ` line, the sentinel, a malformed record
      and a record without a delta all contribute nothing. */
  lemma SilentLines(line: string, parse: DeltaParser)
    ensures !StartsWith(line, DATA_PREFIX) ==> LineText(line, parse) == ""
    ensures line == DATA_PREFIX + DONE ==> LineText(line, parse) == ""
    ensures StartsWith(line, DATA_PREFIX) && parse(line[|DATA_PREFIX|..]) == None ==> LineText(line, parse) == ""
    ensures StartsWith(line, DATA_PREFIX) && parse(line[|DATA_PREFIX|..]) == Some(None) ==> LineText(line, parse) == ""
  {
    if line == DATA_PREFIX + DONE {
      assert Payload(line) == Some(DONE);
    }
  }

  /** A silent line (for instance a malformed record) does not stop the
      scan: every later line of its chunk still contributes. */
  lemma SilentLineDoesNotStop(before: seq<string>, line: string, after: seq<string>, parse: DeltaParser)
    requires LineText(line, parse) == ""
    ensures LinesText(before + [line] + after, parse) == LinesText(before, parse) + LinesText(after, parse)
  {
    var back := [line] + after;
    assert back[0] == line && back[1..] == after;
    assert LinesText(back, parse) == LinesText(after, parse);
    assert before + [line] + after == before + back;
    LinesTextAppend(before, back, parse);
  }

  /** ... and every later chunk still contributes too. */
  lemma SilentLineDoesNotStopStream(chunk: string, before: seq<string>, line: string, after: seq<string>,
                                    later: seq<string>, parse: DeltaParser)
    requires Split(chunk, '\n') == before + [line] + after
    requires LineText(line, parse) == ""
    ensures StreamText([chunk] + later, parse)
      == LinesText(before, parse) + LinesText(after, parse) + StreamText(later, parse)
  {
    SilentLineDoesNotStop(before, line, after, parse);
    assert ([chunk] + later)[1..] == later;
  }

  /** Splitting a join of newline-free lines gives the lines back. */
  lemma {:induction false} SplitJoinInverse(lines: seq<string>)
    requires |lines| > 0
    ensures (forall l :: l in lines ==> '\n' !in l) ==> Split(Join(lines, '\n'), '\n') == lines
    decreases |lines|
  {
    if forall l :: l in lines ==> '\n' !in l {
      if |lines| == 1 {
        SplitNoSeparator(lines[0], '\n');
      } else {
        assert lines[0] in lines;
        assert forall l :: l in lines[1..] ==> l in lines;
        SplitJoinInverse(lines[1..]);
        SplitAppend(lines[0], Join(lines[1..], '\n'), '\n');
        assert lines == [lines[0]] + lines[1..];
      }
    }
  }

  /** A stream whose records each arrive in a chunk of their own, followed by
      the sentinel, yields the concatenated deltas. */
  lemma TwoRecordStream(pa: string, pb: string, a: string, b: string, parse: DeltaParser)
    requires '\n' !in pa && '\n' !in pb && pa != DONE && pb != DONE
    requires parse(pa) == Some(Some(a)) && parse(pb) == Some(Some(b))
    ensures StreamText([DATA_PREFIX + pa + "\n", DATA_PREFIX + pb + "\n", DATA_PREFIX + DONE + "\n"], parse)
      == a + b
  {
    RecordChunk(pa, parse);
    RecordChunk(pb, parse);
    RecordChunk(DONE, parse);
    var cs := [DATA_PREFIX + pa + "\n", DATA_PREFIX + pb + "\n", DATA_PREFIX + DONE + "\n"];
    assert cs[1..][1..][1..] == [];
    assert StreamText(cs[1..][1..], parse) == ChunkText(cs[2], parse) + StreamText([], parse);
    assert StreamText(cs[1..], parse) == ChunkText(cs[1], parse) + StreamText(cs[1..][1..], parse);
  }

  /** A chunk holding one record and its newline contributes that record's line. */
  lemma RecordChunk(p: string, parse: DeltaParser)
    requires '\n' !in p
    ensures ChunkText(DATA_PREFIX + p + "\n", parse) == LineText(DATA_PREFIX + p, parse)
    ensures LineText(DATA_PREFIX + p, parse) == (if p == DONE then "" else DeltaOf(p, parse))
  {
    var line := DATA_PREFIX + p;
    assert '\n' !in line by {
      forall k | 0 <= k < |line| ensures line[k] != '\n' {
        if k >= |DATA_PREFIX| { assert line[k] == p[k - |DATA_PREFIX|]; }
      }
    }
    SplitAppend(line, "", '\n');
    assert line + ['\n'] + "" == DATA_PREFIX + p + "\n";
    assert Split(DATA_PREFIX + p + "\n", '\n') == [line, ""];
    assert LinesText([""], parse) == "";
    assert LinesText([line, ""], parse) == LineText(line, parse) + LinesText([""], parse);
    assert Payload(line) == Some(p);
  }

  /** A record split across two chunks is not reassembled: each half is
      scanned on its own, and neither starts with the full prefix. */
  lemma SplitRecordIsLost(p: string, d: string, parse: DeltaParser)
    requires '\n' !in p && p != DONE
    requires parse(p) == Some(Some(d))
    ensures StreamText([DATA_PREFIX + p + "\n"], parse) == d
    ensures StreamText(["da", "ta: " + p + "\n"], parse) == ""
  {
    RecordChunk(p, parse);
    SplitNoSeparator("da", '\n');
    var second := "ta: " + p;
    assert '\n' !in second by {
      forall k | 0 <= k < |second| ensures second[k] != '\n' {
        if k >= 4 { assert second[k] == p[k - 4]; }
      }
    }
    SplitAppend(second, "", '\n');
    assert second + ['\n'] + "" == "ta: " + p + "\n";
    assert !StartsWith(second, DATA_PREFIX) by {
      if |second| >= 6 { assert second[0] == 't'; }
    }
    assert Split("ta: " + p + "\n", '\n') == [second, ""];
    assert ChunkText("ta: " + p + "\n", parse) == LineText(second, parse) + LinesText([""], parse);
    assert LineText(second, parse) == "";
    assert LinesText([""], parse) == "";
    assert ChunkText("da", parse) == "";
    var cs := ["da", "ta: " + p + "\n"];
    assert cs[1..][1..] == [];
    assert StreamText(cs[1..], parse) == ChunkText(cs[1], parse) + StreamText([], parse);
  }

  lemma LineTextCases(line: string, parse: DeltaParser)
    ensures LineText(line, parse) ==
      if StartsWith(line, DATA_PREFIX) && line[|DATA_PREFIX|..] != DONE
      then DeltaOf(line[|DATA_PREFIX|..], parse) else ""
  {
  }

  /** The inner loop of the event-stream branch: the lines of one chunk
      in order, each `data: ` line other than the sentinel parsed and its
      delta appended to `acc`; a malformed record is skipped. */
  method ScanLines(acc: string, lines: seq<string>, parse: DeltaParser) returns (reply: string)
    ensures reply == acc + LinesText(lines, parse)
  {
    reply := acc;
    var k := 0;
    while k < |lines|
      invariant 0 <= k <= |lines|
      invariant reply == acc + LinesText(lines[..k], parse)
    {
      var line := lines[k];
      ghost var prev := reply;
      if StartsWith(line, DATA_PREFIX) {
        var data := line[|DATA_PREFIX|..];
        if data != DONE {
          var parsed := parse(data);
          if parsed.Some? {
            reply := reply + parsed.value.GetOr("");
          }
        }
      }
      LineTextCases(line, parse);
      assert reply == prev + LineText(line, parse);
      LinesTextAppend(lines[..k], [line], parse);
      assert lines[..k + 1] == lines[..k] + [line];
      k := k + 1;
    }
    assert lines[..k] == lines;
  }

  /** The reading loop of the event-stream branch: chunks in arrival order,
      each split on newlines on its own. */
  method AggregateStream(chunks: seq<string>, parse: DeltaParser) returns (reply: string)
    ensures reply == StreamText(chunks, parse)
  {
    reply := "";
    var c := 0;
    while c < |chunks|
      invariant 0 <= c <= |chunks|
      invariant reply == StreamText(chunks[..c], parse)
    {
      reply := ScanLines(reply, Split(chunks[c], '\n'), parse);
      StreamTextAppend(chunks[..c], [chunks[c]], parse);
      assert chunks[..c + 1] == chunks[..c] + [chunks[c]];
      c := c + 1;
    }
    assert chunks[..c] == chunks;
  }

  /** The result record the rest of the application reads; `data` is the
      reply text when present. */
  datatype ApiResult = ApiResult(success: bool, data: Option<string>, error: Option<string>)

  /** What `fetch` produced: a thrown error with its message, or a response
      with its status, `content-type` header and body as decoded chunks. */
  datatype FetchOutcome =
    | Threw(message: string)
    | Responded(status: nat, contentType: Option<string>, body: seq<string>)

  /** `await response.json()` as an abstract function: the object it yields,
      or the message of the error it throws. */
  type JsonReader = string -> Result<ApiResult, string>

  /** The catch-all failure record: the error's message, or a fixed text
      when the message is empty. */
  function Failed(message: string): (r: ApiResult)
    ensures !r.success && r.data.None? && r.error.Some? && r.error.value != ""
    ensures message != "" ==> r.error == Some(message)
    ensures message == "" ==> r.error == Some(CONNECTION_ERROR)
  {
    ApiResult(false, None, Some(if message == "" then CONNECTION_ERROR else message))
  }

  /** The error message for a non-OK response. */
  function HttpErrorMessage(status: nat, body: string): string {
    "Error " + NatToString(status) + ": " + (if body == "" then NO_DETAILS else body)
  }

  /** The error message names the status and carries the body, or a fixed
      text when the body is empty: both can be read back from it. */
  lemma HttpErrorMessageParts(status: nat, body: string)
    ensures var m := HttpErrorMessage(status, body);
      var digits := NatToString(status);
      && m[..6] == "Error "
      && m[6..6 + |digits|] == digits && DigitsValue(digits) == status
      && m[6 + |digits|..8 + |digits|] == ": "
      && m[8 + |digits|..] == (if body == "" then NO_DETAILS else body)
  {
  }

  predicate IsOk(status: nat) {
    200 <= status <= 299
  }

  predicate IsEventStream(contentType: Option<string>) {
    contentType.Some? && Contains(contentType.value, EVENT_STREAM)
  }

  /** `sendMessageToAI` after the request has been made: a non-OK status is
      a failure that carries the body; an OK event stream is always a success
      carrying the aggregated reply; any other OK body is the parsed object
      as it is; every thrown error becomes a failure record. */
  function SendMessageToAI(outcome: FetchOutcome, parse: DeltaParser, readJson: JsonReader): (r: ApiResult)
    ensures outcome.Threw? ==> r == Failed(outcome.message)
    ensures outcome.Responded? && !IsOk(outcome.status)
      ==> r == Failed(HttpErrorMessage(outcome.status, Concat(outcome.body)))
    ensures outcome.Responded? && IsOk(outcome.status) && IsEventStream(outcome.contentType)
      ==> r == ApiResult(true, Some(StreamText(outcome.body, parse)), None)
    ensures outcome.Responded? && IsOk(outcome.status) && !IsEventStream(outcome.contentType)
      ==> match readJson(Concat(outcome.body))
          case Success(v) => r == v
          case Failure(m) => r == Failed(m)
  {
    match outcome
    case Threw(message) => Failed(message)
    case Responded(status, contentType, body) =>
      if !IsOk(status) then Failed(HttpErrorMessage(status, Concat(body)))
      else if IsEventStream(contentType) then ApiResult(true, Some(StreamText(body, parse)), None)
      else
        match readJson(Concat(body))
        case Success(v) => v
        case Failure(m) => Failed(m)
  }
}

=== FILE: chat_page.dfy ===
/**
 * The chat page's own logic, rendering aside: the submit guard, the input
 * placeholder, the language detection and newline stripping of the code
 * renderer, and the check that skips an invalid message.
 */
module ChatPage {
  import opened Wrappers
  import opened Text

  /** What a submit does: the text handed to the send callback, if any, and
      the input box's content afterwards. */
  datatype SubmitAction = SubmitAction(sent: Option<string>, input: string)

  /** `handleSend`: nothing happens while locked, while a reply is pending or
      when the input is blank; otherwise the trimmed input is sent once and
      the input box is cleared. */
  function HandleSend(isLocked: bool, aiResponding: bool, input: string): (r: SubmitAction)
    ensures isLocked || aiResponding || AllWhitespace(input) ==> r == SubmitAction(None, input)
    ensures !isLocked && !aiResponding && !AllWhitespace(input)
      ==> r == SubmitAction(Some(Trim(input)), "")
    ensures r.sent.Some? ==>
      && r.sent.value != [] && !IsWhitespace(r.sent.value[0])
      && !IsWhitespace(r.sent.value[|r.sent.value| - 1])
  {
    TrimEmptyIffWhitespace(input);
    if isLocked || aiResponding || Trim(input) == [] then SubmitAction(None, input)
    else SubmitAction(Some(Trim(input)), "")
  }

  const LOCKED_PLACEHOLDER: string := "Espera para enviar..."
  const WAITING_PLACEHOLDER: string := "Esperando respuesta..."
  const DEFAULT_PLACEHOLDER: string := "Escribe tu mensaje..."

  /** The input placeholder: locked wins over waiting, which wins over the default. */
  function Placeholder(isLocked: bool, aiResponding: bool): (p: string)
    ensures p == LOCKED_PLACEHOLDER <==> isLocked
    ensures p == WAITING_PLACEHOLDER <==> !isLocked && aiResponding
    ensures p == DEFAULT_PLACEHOLDER <==> !isLocked && !aiResponding
  {
    if isLocked then LOCKED_PLACEHOLDER
    else if aiResponding then WAITING_PLACEHOLDER
    else DEFAULT_PLACEHOLDER
  }

  const LANGUAGE_MARK: string := "language-"

  /** `\w`: an ASCII letter, digit or underscore. */
  predicate IsWordChar(c: char) {
    ('a' <= c <= 'z') || ('A' <= c <= 'Z') || ('0' <= c <= '9') || c == '_'
  }

  /** `/language-(\w+)/` can match starting at index `i`. */
  predicate MatchesAt(s: string, i: int) {
    OccursAt(s, LANGUAGE_MARK, i) && i + |LANGUAGE_MARK| < |s| && IsWordChar(s[i + |LANGUAGE_MARK|])
  }

  /** The leftmost match position at or after `from`. */
  function FirstMatch(s: string, from: nat): (r: Option<nat>)
    requires from <= |s|
    ensures r.Some? ==> from <= r.value && MatchesAt(s, r.value)
    ensures forall k :: from <= k && (r.None? || k < r.value) ==> !MatchesAt(s, k)
    decreases |s| - from
  {
    if MatchesAt(s, from) then Some(from)
    else if from == |s| then None
    else FirstMatch(s, from + 1)
  }

  /** The length of the run of word characters starting at `from` (`\w+` is greedy). */
  function WordRun(s: string, from: nat): (n: nat)
    requires from <= |s|
    ensures from + n <= |s|
    ensures forall k :: from <= k < from + n ==> IsWordChar(s[k])
    ensures from + n == |s| || !IsWordChar(s[from + n])
    decreases |s| - from
  {
    if from < |s| && IsWordChar(s[from]) then 1 + WordRun(s, from + 1) else 0
  }

  /** The language named by a code element's class (`className || ''`):
      the word after the leftmost `language-` that is followed by a word
      character, taken as far as the word characters go. */
  function CodeLanguage(className: Option<string>): (r: Option<string>)
    ensures var s := className.GetOr("");
      r.None? <==> forall k :: !MatchesAt(s, k)
    ensures var s := className.GetOr("");
      r.Some? ==> exists i ::
        && MatchesAt(s, i) && (forall k :: 0 <= k < i ==> !MatchesAt(s, k))
        && i + |LANGUAGE_MARK| + |r.value| <= |s|
        && r.value == s[i + |LANGUAGE_MARK|..i + |LANGUAGE_MARK| + |r.value|]
        && (i + |LANGUAGE_MARK| + |r.value| == |s| || !IsWordChar(s[i + |LANGUAGE_MARK| + |r.value|]))
    ensures r.Some? ==> r.value != [] && forall k :: 0 <= k < |r.value| ==> IsWordChar(r.value[k])
  {
    var s := className.GetOr("");
    match FirstMatch(s, 0)
    case Some(i) =>
      var start := i + |LANGUAGE_MARK|;
      var n := WordRun(s, start);
      Some(s[start..start + n])
    case None => None
  }

  /** A class that is exactly `language-` and a word names that word. */
  lemma LanguageOfPlainClass(w: string)
    requires w != [] && forall k :: 0 <= k < |w| ==> IsWordChar(w[k])
    ensures CodeLanguage(Some(LANGUAGE_MARK + w)) == Some(w)
  {
    var s := LANGUAGE_MARK + w;
    assert MatchesAt(s, 0);
    assert FirstMatch(s, 0) == Some(0);
    var n := WordRun(s, |LANGUAGE_MARK|);
    assert forall k :: |LANGUAGE_MARK| <= k < |s| ==> IsWordChar(s[k]) by {
      forall k | |LANGUAGE_MARK| <= k < |s| ensures IsWordChar(s[k]) {
        assert s[k] == w[k - |LANGUAGE_MARK|];
      }
    }
    assert n == |w|;
    assert s[|LANGUAGE_MARK|..|LANGUAGE_MARK| + n] == w;
  }

  /** `String(children).replace(/\n$/, '')`: at most one final newline is
      dropped and nothing else changes. */
  function StripTrailingNewline(s: string): (r: string)
    ensures |s| - 1 <= |r| <= |s| && r == s[..|r|]
    ensures |r| < |s| <==> |s| > 0 && s[|s| - 1] == '\n'
  {
    if |s| > 0 && s[|s| - 1] == '\n' then s[..|s| - 1] else s
  }

  /** How the renderer shows a code element. */
  datatype CodeView =
    | Highlighted(language: string, code: string)
    | InlineCode(content: string)

  /** The `code` renderer: highlighted when the class names a language, with
      the final newline dropped; inline and verbatim otherwise. */
  function RenderCode(className: Option<string>, children: string): (v: CodeView)
    ensures v.Highlighted? <==> CodeLanguage(className).Some?
    ensures v.Highlighted? ==>
      && v.language == CodeLanguage(className).value
      && (children == v.code || children == v.code + "\n")
      && v.code == StripTrailingNewline(children)
    ensures v.InlineCode? ==> v.content == children
  {
    match CodeLanguage(className)
    case Some(lang) =>
      var code := StripTrailingNewline(children);
      assert children == code || children == code + "\n";
      Highlighted(lang, code)
    case None => InlineCode(children)
  }

  /** A message's `text` field as JavaScript sees it. */
  datatype TextField = Undefined | Null | Text(value: string)

  /** A message object as the message list passes it. */
  datatype RawMessage = RawMessage(sender: string, text: TextField)

  /** The bubble a message renders as: whose side it is on and the markdown shown. */
  datatype Bubble = Bubble(isUser: bool, markdown: string)

  /** `MessageItem`: a missing message or one without a `text` field renders
      nothing; a `null` text renders an empty bubble. */
  function RenderMessage(m: Option<RawMessage>): (b: Option<Bubble>)
    ensures b.None? <==> m.None? || m.value.text.Undefined?
    ensures b.Some? ==> b.value.isUser == (m.value.sender == "user")
    ensures b.Some? && m.value.text.Text? ==> b.value.markdown == m.value.text.value
    ensures b.Some? && m.value.text.Null? ==> b.value.markdown == ""
  {
    match m
    case None => None
    case Some(msg) =>
      match msg.text
      case Undefined => None
      case Null => Some(Bubble(msg.sender == "user", ""))
      case Text(t) => Some(Bubble(msg.sender == "user", t))
  }
}

=== FILE: conversations.dfy ===
/**
 * The conversation list kept by the application: selecting, creating,
 * renaming and deleting conversations, and the mapping of a conversation's
 * messages onto the chat roles the completion endpoint expects.
 */
module Conversations {
  import opened Wrappers
  import opened Text

  datatype Sender = User | Ai

  /** A chat message; `isError` marks a failure shown in place of a reply. */
  datatype Message = Message(sender: Sender, text: string, timestamp: nat, isError: bool)

  datatype Conversation = Conversation(
    id: nat, title: string, date: string, messages: seq<Message>, active: bool)

  /** The tab the application shows. */
  datatype Tab = Home | Api

  const NEW_CHAT_TITLE: string := "Nueva conversación"
  const NEW_CHAT_DATE: string := "Ahora"
  const NEW_CHAT_GREETING: string := "Nueva conversación iniciada. ¿Cómo puedo ayudarte?"
  const UNTITLED: string := "Conversación sin título"

  /** At most one conversation is marked active. */
  predicate AtMostOneActive(cs: seq<Conversation>) {
    forall i, j :: 0 <= i < |cs| && 0 <= j < |cs| && cs[i].active && cs[j].active ==> i == j
  }

  predicate SomeActive(cs: seq<Conversation>) {
    exists i :: 0 <= i < |cs| && cs[i].active
  }

  /** `b` is `a` with, at most, different `active` flags. */
  predicate SameButActive(a: seq<Conversation>, b: seq<Conversation>) {
    |a| == |b| && forall i :: 0 <= i < |a| ==> b[i].(active := a[i].active) == a[i]
  }

  /** The first active conversation (`conversations.find(c => c.active)`). */
  function FindActive(cs: seq<Conversation>): (r: Option<nat>)
    ensures r.Some? ==>
      && r.value < |cs| && cs[r.value].active
      && forall j :: 0 <= j < r.value ==> !cs[j].active
    ensures r.None? <==> !SomeActive(cs)
  {
    if |cs| == 0 then None
    else if cs[0].active then Some(0)
    else
      match FindActive(cs[1..])
      case Some(k) => Some(k + 1)
      case None => None
  }

  /** Selecting a conversation marks exactly the conversations with that id
      active and changes nothing else. */
  function SelectConversation(cs: seq<Conversation>, id: nat): (r: seq<Conversation>)
    ensures SameButActive(cs, r)
    ensures forall i :: 0 <= i < |r| ==> (r[i].active <==> cs[i].id == id)
  {
    seq(|cs|, i requires 0 <= i < |cs| => cs[i].(active := cs[i].id == id))
  }

  /** With distinct ids, selecting an existing id leaves exactly that
      conversation active, and it is the one the chat page shows. */
  lemma SelectLeavesOneActive(cs: seq<Conversation>, id: nat, k: nat)
    requires forall i, j :: 0 <= i < j < |cs| ==> cs[i].id != cs[j].id
    requires k < |cs| && cs[k].id == id
    ensures AtMostOneActive(SelectConversation(cs, id))
    ensures FindActive(SelectConversation(cs, id)) == Some(k)
  {
    var r := SelectConversation(cs, id);
    assert forall i :: 0 <= i < |r| && r[i].active ==> i == k;
  }

  /** The conversation `startNewChat` creates at time `now`. */
  function NewChat(now: nat): Conversation {
    Conversation(now, NEW_CHAT_TITLE, NEW_CHAT_DATE,
      [Message(Ai, NEW_CHAT_GREETING, now, false)], true)
  }

  /** A new chat goes in front and is the only active one; the older
      conversations follow in order, deactivated and otherwise unchanged. */
  function StartNewChat(cs: seq<Conversation>, now: nat): (r: seq<Conversation>)
    ensures |r| == |cs| + 1 && r[0] == NewChat(now)
    ensures SameButActive(cs, r[1..])
    ensures forall i :: 1 <= i < |r| ==> !r[i].active
    ensures AtMostOneActive(r) && FindActive(r) == Some(0)
  {
    [NewChat(now)] + seq(|cs|, i requires 0 <= i < |cs| => cs[i].(active := false))
  }

  /** The title a rename stores: the trimmed input, or a fixed title when
      nothing but whitespace was typed. */
  function RenamedTitle(input: string): (t: string)
    ensures t != [] && !IsWhitespace(t[0]) && !IsWhitespace(t[|t| - 1])
    ensures !AllWhitespace(input) ==> t == Trim(input)
    ensures AllWhitespace(input) ==> t == UNTITLED
  {
    TrimEmptyIffWhitespace(input);
    var t := Trim(input);
    if t == [] then UNTITLED else t
  }

  /** Saving a rename retitles exactly the conversations with that id. */
  function SaveRename(cs: seq<Conversation>, id: nat, input: string): (r: seq<Conversation>)
    ensures |r| == |cs|
    ensures forall i :: 0 <= i < |cs| && cs[i].id == id ==> r[i] == cs[i].(title := RenamedTitle(input))
    ensures forall i :: 0 <= i < |cs| && cs[i].id != id ==> r[i] == cs[i]
  {
    seq(|cs|, i requires 0 <= i < |cs| =>
      if cs[i].id == id then cs[i].(title := RenamedTitle(input)) else cs[i])
  }

  /** A rename touches titles only: ids, messages and active flags are kept. */
  lemma RenameKeepsAllButTitles(cs: seq<Conversation>, id: nat, input: string)
    ensures var r := SaveRename(cs, id, input);
      forall i :: 0 <= i < |cs| ==> r[i].(title := cs[i].title) == cs[i]
  {
  }

  /** The conversations whose id is not `id`, in their original order. */
  function Remaining(cs: seq<Conversation>, id: nat): (r: seq<Conversation>)
    ensures |r| <= |cs|
    ensures forall c :: c in r <==> c in cs && c.id != id
  {
    if |cs| == 0 then []
    else (if cs[0].id != id then [cs[0]] else []) + Remaining(cs[1..], id)
  }

  /** Filtering distributes over concatenation: the survivors keep their
      relative order. */
  lemma {:induction false} RemainingAppend(a: seq<Conversation>, b: seq<Conversation>, id: nat)
    ensures Remaining(a + b, id) == Remaining(a, id) + Remaining(b, id)
    decreases |a|
  {
    if |a| > 0 {
      assert (a + b)[1..] == a[1..] + b;
      RemainingAppend(a[1..], b, id);
    } else {
      assert a + b == b;
    }
  }

  /** Filtering never creates a second active conversation. */
  lemma {:induction false} RemainingKeepsAtMostOneActive(cs: seq<Conversation>, id: nat)
    requires AtMostOneActive(cs)
    ensures AtMostOneActive(Remaining(cs, id))
    decreases |cs|
  {
    if |cs| > 0 {
      var tl := cs[1..];
      assert AtMostOneActive(tl) by {
        forall i, j | 0 <= i < |tl| && 0 <= j < |tl| && tl[i].active && tl[j].active ensures i == j {
          assert cs[i + 1].active && cs[j + 1].active;
        }
      }
      RemainingKeepsAtMostOneActive(tl, id);
      var rest := Remaining(tl, id);
      var head := if cs[0].id != id then [cs[0]] else [];
      assert Remaining(cs, id) == head + rest;
      if head != [] && cs[0].active {
        assert forall j :: 0 <= j < |tl| ==> !tl[j].active by {
          forall j | 0 <= j < |tl| ensures !tl[j].active {
            assert tl[j] == cs[j + 1];
          }
        }
        assert forall k :: 0 <= k < |rest| ==> !rest[k].active by {
          forall k | 0 <= k < |rest| ensures !rest[k].active {
            assert rest[k] in tl;
          }
        }
      }
    }
  }

  /** Deleting the active conversation leaves no active survivor. */
  lemma DeletedActiveLeavesNone(cs: seq<Conversation>, id: nat, i: nat)
    requires AtMostOneActive(cs)
    requires i < |cs| && cs[i].id == id && cs[i].active
    ensures !SomeActive(Remaining(cs, id))
  {
    var r := Remaining(cs, id);
    forall k | 0 <= k < |r| ensures !r[k].active {
      assert r[k] in cs;
      var j :| 0 <= j < |cs| && cs[j] == r[k];
      assert j != i;
    }
  }

  datatype DeleteResult = DeleteResult(convs: seq<Conversation>, tab: Option<Tab>)

  /** Marks the first conversation active (the source sets the flag on the
      first survivor). */
  function ActivateFirst(cs: seq<Conversation>): (r: seq<Conversation>)
    requires |cs| > 0
    ensures SameButActive(cs, r) && r[0].active
    ensures forall i :: 1 <= i < |r| ==> r[i] == cs[i]
  {
    [cs[0].(active := true)] + cs[1..]
  }

  /** Deleting a conversation: the others are kept in order; when the
      active one was deleted, or when none of the survivors is active, the
      first survivor is activated and the chat tab shown; when nothing is
      left the home tab is shown. */
  function DeleteConversation(cs: seq<Conversation>, id: nat): (r: DeleteResult)
    ensures SameButActive(Remaining(cs, id), r.convs)
    ensures forall i :: 1 <= i < |r.convs| ==> r.convs[i] == Remaining(cs, id)[i]
    ensures r.convs != [] ==> SomeActive(r.convs)
    ensures r.convs == [] <==> r.tab == Some(Home)
    ensures r.tab == None ==> r.convs == Remaining(cs, id)
  {
    var remaining := Remaining(cs, id);
    var wasActiveDeleted := exists i :: 0 <= i < |cs| && cs[i].id == id && cs[i].active;
    if |remaining| > 0 && wasActiveDeleted then
      DeleteResult(ActivateFirst(remaining), Some(Api))
    else if |remaining| == 0 then
      DeleteResult(remaining, Some(Home))
    else if !wasActiveDeleted && !SomeActive(remaining) then
      DeleteResult(ActivateFirst(remaining), Some(Api))
    else
      DeleteResult(remaining, None)
  }

  /** Deleting removes exactly the conversations with that id. */
  lemma DeleteRemovesExactlyId(cs: seq<Conversation>, id: nat, c: Conversation)
    ensures c in cs && c.id != id ==> c in DeleteConversation(cs, id).convs || c.(active := true) in DeleteConversation(cs, id).convs
    ensures c in DeleteConversation(cs, id).convs ==> c.id != id
  {
  }

  /** Deleting an inactive conversation while another is active changes
      nothing but the list itself. */
  lemma DeleteInactiveKeepsOthers(cs: seq<Conversation>, id: nat)
    requires forall i :: 0 <= i < |cs| && cs[i].id == id ==> !cs[i].active
    requires SomeActive(cs)
    ensures DeleteConversation(cs, id) == DeleteResult(Remaining(cs, id), None)
  {
  }

  /** Deletion keeps the single-active-conversation discipline: starting from
      at most one active conversation, a non-empty result has exactly one. */
  lemma DeleteKeepsOneActive(cs: seq<Conversation>, id: nat)
    requires AtMostOneActive(cs)
    ensures AtMostOneActive(DeleteConversation(cs, id).convs)
    ensures DeleteConversation(cs, id).convs != [] ==> FindActive(DeleteConversation(cs, id).convs).Some?
  {
    RemainingKeepsAtMostOneActive(cs, id);
    var rem := Remaining(cs, id);
    var r := DeleteConversation(cs, id).convs;
    if r != rem {
      if exists i :: 0 <= i < |cs| && cs[i].id == id && cs[i].active {
        var i :| 0 <= i < |cs| && cs[i].id == id && cs[i].active;
        DeletedActiveLeavesNone(cs, id, i);
      }
      assert !SomeActive(rem);
      assert forall k :: 1 <= k < |r| ==> r[k] == rem[k] && !r[k].active;
    }
  }

  /** A message as the completion endpoint receives it. */
  datatype ApiMessage = ApiMessage(role: string, content: string)

  function RoleOf(s: Sender): string {
    if s == Ai then "assistant" else "user"
  }

  /** Reads a role back as a sender. */
  function SenderOf(role: string): Sender {
    if role == "assistant" then Ai else User
  }

  /** The history sent with a request: one entry per message, in order, with
      the message text as content and the AI's turns as `assistant`. */
  function ToApiMessages(msgs: seq<Message>): (r: seq<ApiMessage>)
    ensures |r| == |msgs|
    ensures forall i :: 0 <= i < |msgs| ==> r[i].content == msgs[i].text
    ensures forall i :: 0 <= i < |msgs| ==>
      (r[i].role == "assistant" <==> msgs[i].sender == Ai)
      && (r[i].role == "user" <==> msgs[i].sender == User)
  {
    seq(|msgs|, i requires 0 <= i < |msgs| => ApiMessage(RoleOf(msgs[i].sender), msgs[i].text))
  }

  /** The role mapping loses nothing the endpoint needs: each message's
      sender and text can be read back from the request. */
  lemma ApiMessagesRoundTrip(msgs: seq<Message>)
    ensures var r := ToApiMessages(msgs);
      forall i :: 0 <= i < |msgs| ==> SenderOf(r[i].role) == msgs[i].sender && r[i].content == msgs[i].text
  {
  }
}

=== FILE: proxy.dfy ===
/**
 * The serverless relay between the browser and the completion provider, as
 * a decision over its inputs: the request method, the configured key, the
 * parse of the request body and the provider's answer decide the status
 * code and body returned.
 */
module Proxy {
  import opened Wrappers

  const PROVIDER_URL: string := "https://api.deepseek.com/chat/completions"
  const MODEL: string := "deepseek-chat"

  const METHOD_NOT_ALLOWED: string := "Método no permitido. Solo se acepta POST."
  const KEY_MISSING: string := "Error interno del servidor: API Key no configurada."
  const BAD_BODY: string := "Cuerpo de la solicitud inválido o falta el array de mensajes."
  const UPSTREAM_PREFIX: string := "Error al contactar la IA: "
  const INTERNAL_ERROR: string := "Error interno del servidor al procesar la solicitud."

  datatype Header = Header(name: string, value: string)

  const JSON_HEADERS: seq<Header> := [Header("Content-Type", "application/json")]

  /** A response body: `{ error: message }`, or the provider's JSON relayed. */
  datatype Body = ErrorJson(message: string) | Relayed(json: string)

  datatype Response = Response(statusCode: nat, headers: seq<Header>, body: Body)

  /** The incoming invocation: its method and raw body (`None` for no body). */
  datatype Event = Event(httpMethod: string, body: Option<string>)

  /** How the request body reads: `JSON.parse` threw, `messages` is not an
      array, or the messages array. */
  datatype BodyParse<M> = Unparseable | NotAnArray | Messages(messages: M)

  /** The call the relay makes to the provider. */
  datatype UpstreamRequest<M> = UpstreamRequest(url: string, model: string, messages: M, authorization: string)

  /** What the provider call produced: an OK answer with its JSON, a non-OK
      status with its body text, or a thrown error (network failure or an
      unreadable OK body). */
  datatype Upstream = UpOk(json: string) | UpNotOk(status: nat, text: string) | UpThrew

  datatype HandlerResult<M> = HandlerResult(response: Response, request: Option<UpstreamRequest<M>>)

  /** `handler`: the method is checked first, then the key, then the body;
      only a request that passes all three reaches the provider, whose
      answer is then mapped to the response. */
  function Handler<M>(event: Event, apiKey: Option<string>, parse: Option<string> -> BodyParse<M>,
                      fetch: UpstreamRequest<M> -> Upstream): (r: HandlerResult<M>)
    ensures event.httpMethod != "POST" ==>
      r == HandlerResult(Response(405, [Header("Allow", "POST")], ErrorJson(METHOD_NOT_ALLOWED)), None)
    ensures event.httpMethod == "POST" && (apiKey.None? || apiKey.value == []) ==>
      r == HandlerResult(Response(500, JSON_HEADERS, ErrorJson(KEY_MISSING)), None)
    ensures event.httpMethod == "POST" && apiKey.Some? && apiKey.value != [] && !parse(event.body).Messages? ==>
      r == HandlerResult(Response(400, JSON_HEADERS, ErrorJson(BAD_BODY)), None)
    ensures r.request.Some? <==>
      event.httpMethod == "POST" && apiKey.Some? && apiKey.value != [] && parse(event.body).Messages?
    ensures r.request.Some? ==>
      && r.request.value == UpstreamRequest(PROVIDER_URL, MODEL, parse(event.body).messages, "Bearer " + apiKey.value)
      && match fetch(r.request.value)
         case UpOk(json) => r.response == Response(200, JSON_HEADERS, Relayed(json))
         case UpNotOk(status, text) => r.response == Response(status, JSON_HEADERS, ErrorJson(UPSTREAM_PREFIX + text))
         case UpThrew => r.response == Response(500, JSON_HEADERS, ErrorJson(INTERNAL_ERROR))
  {
    if event.httpMethod != "POST" then
      HandlerResult(Response(405, [Header("Allow", "POST")], ErrorJson(METHOD_NOT_ALLOWED)), None)
    else if apiKey.None? || apiKey.value == [] then
      HandlerResult(Response(500, JSON_HEADERS, ErrorJson(KEY_MISSING)), None)
    else
      match parse(event.body)
      case Unparseable => HandlerResult(Response(400, JSON_HEADERS, ErrorJson(BAD_BODY)), None)
      case NotAnArray => HandlerResult(Response(400, JSON_HEADERS, ErrorJson(BAD_BODY)), None)
      case Messages(msgs) =>
        var request := UpstreamRequest(PROVIDER_URL, MODEL, msgs, "Bearer " + apiKey.value);
        var response :=
          match fetch(request)
          case UpOk(json) => Response(200, JSON_HEADERS, Relayed(json))
          case UpNotOk(status, text) => Response(status, JSON_HEADERS, ErrorJson(UPSTREAM_PREFIX + text))
          case UpThrew => Response(500, JSON_HEADERS, ErrorJson(INTERNAL_ERROR));
        HandlerResult(response, Some(request))
  }

  /** The method check comes first: for any other method the outcome is the
      same whatever the key, the body and the provider would do. */
  lemma MethodCheckedFirst<M>(event: Event, key1: Option<string>, key2: Option<string>,
                              parse1: Option<string> -> BodyParse<M>, parse2: Option<string> -> BodyParse<M>,
                              fetch1: UpstreamRequest<M> -> Upstream, fetch2: UpstreamRequest<M> -> Upstream)
    requires event.httpMethod != "POST"
    ensures Handler(event, key1, parse1, fetch1) == Handler(event, key2, parse2, fetch2)
    ensures Handler(event, key1, parse1, fetch1).response.headers == [Header("Allow", "POST")]
  {
  }

  /** The key is checked before the body is looked at. */
  lemma KeyCheckedBeforeBody<M>(event: Event, apiKey: Option<string>, parse1: Option<string> -> BodyParse<M>,
                                parse2: Option<string> -> BodyParse<M>,
                                fetch1: UpstreamRequest<M> -> Upstream, fetch2: UpstreamRequest<M> -> Upstream)
    requires event.httpMethod == "POST"
    requires apiKey.None? || apiKey.value == []
    ensures Handler(event, apiKey, parse1, fetch1) == Handler(event, apiKey, parse2, fetch2)
    ensures Handler(event, apiKey, parse1, fetch1).response.statusCode == 500
  {
  }

  /** A status outside the provider's own answers tells which check failed:
      405, 400 and the key's 500 are answered without calling the provider. */
  lemma RejectedWithoutCall<M>(event: Event, apiKey: Option<string>, parse: Option<string> -> BodyParse<M>,
                               fetch: UpstreamRequest<M> -> Upstream)
    requires Handler(event, apiKey, parse, fetch).request.None?
    ensures var resp := Handler(event, apiKey, parse, fetch).response;
      && resp.statusCode in {405, 500, 400}
      && resp.body.ErrorJson?
  {
  }

  /** An error status from the provider is passed through unchanged, with
      the provider's text behind a fixed prefix. */
  lemma UpstreamStatusPassedThrough<M>(event: Event, key: string, msgs: M, parse: Option<string> -> BodyParse<M>,
                                       fetch: UpstreamRequest<M> -> Upstream, status: nat, text: string)
    requires event.httpMethod == "POST" && key != [] && parse(event.body) == Messages(msgs)
    requires fetch(UpstreamRequest(PROVIDER_URL, MODEL, msgs, "Bearer " + key)) == UpNotOk(status, text)
    ensures var resp := Handler(event, Some(key), parse, fetch).response;
      && resp.statusCode == status
      && resp.body.ErrorJson?
      && resp.body.message[..|UPSTREAM_PREFIX|] == UPSTREAM_PREFIX
      && resp.body.message[|UPSTREAM_PREFIX|..] == text
  {
  }
}

=== FILE: send_message.dfy ===
/**
 * Sending a message from the application: the guard, the request built
 * from the active conversation, the AI turn made from the call's result,
 * and the gate bookkeeping once the call has completed. The call itself is
 * a parameter; the two clock readings (when the send starts and when the
 * call completes) are inputs.
 */
module SendMessage {
  import opened Wrappers
  import opened Text
  import opened Conversations
  import opened UsageGate
  import opened ApiClient
  import ChatPage

  const GENERIC_ERROR: string := "Hubo un error al procesar tu solicitud."
  const CONNECTION_LOST: string := "Error de conexión con el asistente. Intenta de nuevo."

  /** The AI turn appended after a call (`None` is a call that threw): the
      reply when the result is a success with non-empty data, otherwise an
      error turn with the result's error text or a fixed one. */
  function AiMessageFor(reply: Option<ApiResult>, doneAt: nat): (m: Message)
    ensures m.sender == Ai && m.timestamp == doneAt + 1 && m.text != []
    ensures !m.isError <==> reply.Some? && reply.value.success && reply.value.data.Some? && reply.value.data.value != []
    ensures !m.isError ==> m.text == reply.value.data.value
    ensures m.isError && reply.Some? && reply.value.error.Some? && reply.value.error.value != []
      ==> m.text == reply.value.error.value
    ensures m.isError && reply.Some? && (reply.value.error.None? || reply.value.error.value == [])
      ==> m.text == GENERIC_ERROR
    ensures reply.None? ==> m.text == CONNECTION_LOST && m.isError
  {
    match reply
    case None => Message(Ai, CONNECTION_LOST, doneAt + 1, true)
    case Some(r) =>
      if r.success && r.data.Some? && r.data.value != [] then Message(Ai, r.data.value, doneAt + 1, false)
      else
        var text := if r.error.Some? && r.error.value != [] then r.error.value else GENERIC_ERROR;
        Message(Ai, text, doneAt + 1, true)
  }

  /** An event stream that carried no delta is reported as a success by the
      client, but is shown as an error turn with the fixed text. */
  lemma EmptyStreamShowsError(chunks: seq<string>, contentType: string, parse: DeltaParser,
                              readJson: JsonReader, doneAt: nat)
    requires Contains(contentType, EVENT_STREAM)
    requires StreamText(chunks, parse) == []
    ensures var r := SendMessageToAI(Responded(200, Some(contentType), chunks), parse, readJson);
      r.success && AiMessageFor(Some(r), doneAt) == Message(Ai, GENERIC_ERROR, doneAt + 1, true)
  {
  }

  /** Every failure the client reports reaches the conversation with its own
      text as an error turn. */
  lemma ClientFailureShown(outcome: FetchOutcome, parse: DeltaParser, readJson: JsonReader, doneAt: nat)
    requires outcome.Threw? || (outcome.Responded? && !IsOk(outcome.status))
    ensures var r := SendMessageToAI(outcome, parse, readJson);
      var m := AiMessageFor(Some(r), doneAt);
      m.isError && m.text == r.error.value
  {
  }

  /** Appends `msgs` to every conversation with the given id. */
  function AppendTo(cs: seq<Conversation>, id: nat, msgs: seq<Message>): (r: seq<Conversation>)
    ensures |r| == |cs|
    ensures forall i :: 0 <= i < |cs| ==>
      r[i] == if cs[i].id == id then cs[i].(messages := cs[i].messages + msgs) else cs[i]
  {
    seq(|cs|, i requires 0 <= i < |cs| =>
      if cs[i].id == id then cs[i].(messages := cs[i].messages + msgs) else cs[i])
  }

  /** The application state a send reads and writes. */
  datatype AppState = AppState(convs: seq<Conversation>, gate: GateState, aiResponding: bool)

  /** The state after a send, and the history sent to the endpoint if a call was made. */
  datatype SendOutcome = SendOutcome(state: AppState, request: Option<seq<ApiMessage>>)

  /** `handleSendMessage`, as one sequential step. A send while locked, while
      a reply is pending or with no active conversation does nothing. Otherwise
      the active conversation's history plus the new user message is sent; the
      user message and the AI turn are appended to the conversations with the
      active one's id; and the completed attempt is recorded on the gate at
      `doneAt` by the `finally` bookkeeping as written, which does not clear
      an expired cooldown first. */
  function HandleSendMessage(st: AppState, text: string, now: nat, doneAt: nat,
                             call: seq<ApiMessage> -> Option<ApiResult>): (r: SendOutcome)
    ensures !SendAllowed(st.gate, st.aiResponding, now) || !SomeActive(st.convs) ==> r == SendOutcome(st, None)
    ensures r.request.Some? <==> SendAllowed(st.gate, st.aiResponding, now) && SomeActive(st.convs)
    ensures r.request.Some? ==>
      var k := FindActive(st.convs).value;
      var user := Message(User, text, now, false);
      && r.request.value == ToApiMessages(st.convs[k].messages + [user])
      && r.state == AppState(
           AppendTo(st.convs, st.convs[k].id, [user, AiMessageFor(call(r.request.value), doneAt)]),
           RecordAttempt(st.gate, doneAt), false)
  {
    if !SendAllowed(st.gate, st.aiResponding, now) then SendOutcome(st, None)
    else
      match FindActive(st.convs)
      case None => SendOutcome(st, None)
      case Some(k) =>
        var active := st.convs[k];
        var user := Message(User, text, now, false);
        var request := ToApiMessages(active.messages + [user]);
        var ai := AiMessageFor(call(request), doneAt);
        SendOutcome(AppState(AppendTo(st.convs, active.id, [user, ai]),
                             RecordAttempt(st.gate, doneAt), false),
                    Some(request))
  }

  /** The request ends with the new text as a user turn, after the whole
      history of the active conversation in order. */
  lemma RequestEndsWithUserText(st: AppState, text: string, now: nat, doneAt: nat,
                                call: seq<ApiMessage> -> Option<ApiResult>)
    requires HandleSendMessage(st, text, now, doneAt, call).request.Some?
    ensures var req := HandleSendMessage(st, text, now, doneAt, call).request.value;
      var active := st.convs[FindActive(st.convs).value];
      && |req| == |active.messages| + 1
      && req[|req| - 1] == ApiMessage("user", text)
      && req[..|active.messages|] == ToApiMessages(active.messages)
  {
    var req := HandleSendMessage(st, text, now, doneAt, call).request.value;
    var active := st.convs[FindActive(st.convs).value];
    assert req[..|active.messages|] == ToApiMessages(active.messages);
  }

  /** As written, a send keeps the gate invariant only when no expired
      cooldown is waiting for the countdown at the instant it completes. */
  lemma SendKeepsGateInv(st: AppState, text: string, now: nat, doneAt: nat,
                         call: seq<ApiMessage> -> Option<ApiResult>)
    requires Inv(st.gate) && now <= doneAt && !PendingExpiry(st.gate, doneAt)
    ensures Inv(HandleSendMessage(st, text, now, doneAt, call).state.gate)
  {
  }

  /** The stale window reached through a whole send: a gate at the limit whose
      cooldown ends at `t`, and a send at `t` before the countdown has run,
      leave the count one past the limit with a fresh cooldown. */
  lemma SendInStaleWindowExceedsLimit(c: Conversation, text: string, t: nat,
                                      call: seq<ApiMessage> -> Option<ApiResult>)
    requires c.active
    ensures var st := AppState([c], GateState(MESSAGE_LIMIT, false, Some(t)), false);
      var r := HandleSendMessage(st, text, t, t, call);
      && Inv(st.gate) && r.request.Some?
      && r.state.gate == GateState(MESSAGE_LIMIT + 1, false, Some(t + COOLDOWN_MS))
      && !Inv(r.state.gate)
  {
    var st := AppState([c], GateState(MESSAGE_LIMIT, false, Some(t)), false);
    assert FindActive(st.convs) == Some(0);
  }

  /** `handleSendMessage` with the intended bookkeeping: the same request
      and conversations, but an expired cooldown is cleared before the
      completed attempt is counted. */
  function HandleSendMessageFresh(st: AppState, text: string, now: nat, doneAt: nat,
                                  call: seq<ApiMessage> -> Option<ApiResult>): (r: SendOutcome)
    ensures var w := HandleSendMessage(st, text, now, doneAt, call);
      && r.request == w.request
      && r.state.convs == w.state.convs && r.state.aiResponding == w.state.aiResponding
      && (r.request.None? ==> r.state.gate == st.gate)
      && (r.request.Some? ==> r.state.gate == RecordAttemptFresh(st.gate, doneAt))
  {
    var w := HandleSendMessage(st, text, now, doneAt, call);
    if w.request.Some? then w.(state := w.state.(gate := RecordAttemptFresh(st.gate, doneAt)))
    else w
  }

  /** With the intended bookkeeping every send keeps the gate invariant, with
      no condition on when the countdown last ran. */
  lemma SendFreshKeepsGateInv(st: AppState, text: string, now: nat, doneAt: nat,
                              call: seq<ApiMessage> -> Option<ApiResult>)
    requires Inv(st.gate) && now <= doneAt
    ensures Inv(HandleSendMessageFresh(st, text, now, doneAt, call).state.gate)
  {
    var g := st.gate;
    if !IsLocked(g, now) {
      assert !IsLocked(g, doneAt);
    }
  }

  /** A send changes only the conversations with the active one's id: each
      gains the user message and then the AI turn; all others are kept. */
  lemma SendTouchesOnlyActive(st: AppState, text: string, now: nat, doneAt: nat,
                              call: seq<ApiMessage> -> Option<ApiResult>, i: nat)
    requires HandleSendMessage(st, text, now, doneAt, call).request.Some?
    requires i < |st.convs|
    ensures var after := HandleSendMessage(st, text, now, doneAt, call).state.convs;
      var id := st.convs[FindActive(st.convs).value].id;
      && |after| == |st.convs|
      && (st.convs[i].id != id ==> after[i] == st.convs[i])
      && (st.convs[i].id == id ==>
            && after[i].(messages := st.convs[i].messages) == st.convs[i]
            && |after[i].messages| == |st.convs[i].messages| + 2
            && after[i].messages[|after[i].messages| - 2] == Message(User, text, now, false)
            && after[i].messages[|after[i].messages| - 1].sender == Ai)
  {
  }

  /** Submitting the chat page's input, with the page's lock flag computed
      from the gate at the instant of the submit. The application computes
      that flag when it renders, so the page's flag can lag behind the clock
      until the next render; the model does not represent that lag. A blank
      input or a refused send changes nothing and keeps the input; otherwise
      the trimmed text is sent and the input box is cleared. */
  function Submit(st: AppState, input: string, now: nat, doneAt: nat,
                  call: seq<ApiMessage> -> Option<ApiResult>): (r: (SendOutcome, string))
    ensures AllWhitespace(input) ==> r == (SendOutcome(st, None), input)
    ensures IsLocked(st.gate, now) || st.aiResponding ==> r == (SendOutcome(st, None), input)
    ensures !IsLocked(st.gate, now) && !st.aiResponding && !AllWhitespace(input)
      ==> r == (HandleSendMessage(st, Trim(input), now, doneAt, call), "")
    ensures r.0.request.Some? ==>
      && r.1 == ""
      && r.0 == HandleSendMessage(st, Trim(input), now, doneAt, call)
  {
    var action := ChatPage.HandleSend(IsLocked(st.gate, now), st.aiResponding, input);
    match action.sent
    case None => (SendOutcome(st, None), action.input)
    case Some(text) => (HandleSendMessage(st, text, now, doneAt, call), action.input)
  }
}

=== FILE: text.dfy ===
/**
 * String helpers with the semantics of the JavaScript built-ins the
 * application relies on: `String.prototype.trim`, `startsWith`,
 * `includes`, `split` on a one-character separator, and the decimal
 * rendering of a non-negative integer in a template literal.
 */
module Text {
  import opened Wrappers

  /** The characters `String.prototype.trim` removes: ECMAScript WhiteSpace
      (tab, vertical tab, form feed, space, no-break space, byte order mark
      and the Unicode space separators) and LineTerminator. */
  predicate IsWhitespace(c: char) {
    var k := c as int;
    k == 0x09 || k == 0x0A || k == 0x0B || k == 0x0C || k == 0x0D || k == 0x20
    || k == 0xA0 || k == 0x1680 || (0x2000 <= k <= 0x200A) || k == 0x2028
    || k == 0x2029 || k == 0x202F || k == 0x205F || k == 0x3000 || k == 0xFEFF
  }

  predicate AllWhitespace(s: string) {
    forall i :: 0 <= i < |s| ==> IsWhitespace(s[i])
  }

  /** The number of whitespace characters `s.trimStart()` removes. */
  function LeadingSpace(s: string): (n: nat)
    ensures n <= |s|
    ensures forall i :: 0 <= i < n ==> IsWhitespace(s[i])
    ensures n == |s| || !IsWhitespace(s[n])
  {
    if |s| > 0 && IsWhitespace(s[0]) then 1 + LeadingSpace(s[1..]) else 0
  }

  /** The number of whitespace characters `s.trimEnd()` removes. */
  function TrailingSpace(s: string): (n: nat)
    ensures n <= |s|
    ensures forall i :: |s| - n <= i < |s| ==> IsWhitespace(s[i])
    ensures n == |s| || !IsWhitespace(s[|s| - n - 1])
  {
    if |s| > 0 && IsWhitespace(s[|s| - 1]) then 1 + TrailingSpace(s[..|s| - 1]) else 0
  }

  /** `s.trim()`: a contiguous slice of `s` without whitespace at either end,
      and everything cut away is whitespace. */
  function Trim(s: string): (r: string)
    ensures var i := LeadingSpace(s);
      && i + |r| <= |s| && r == s[i..i + |r|]
      && (forall k :: 0 <= k < i ==> IsWhitespace(s[k]))
      && (forall k :: i + |r| <= k < |s| ==> IsWhitespace(s[k]))
    ensures r == [] || (!IsWhitespace(r[0]) && !IsWhitespace(r[|r| - 1]))
  {
    var i := LeadingSpace(s);
    var t := s[i..];
    var j := TrailingSpace(t);
    assert forall k :: i + |t| - j <= k < |s| ==> s[k] == t[k - i];
    t[..|t| - j]
  }

  /** The trimmed text is empty exactly when the input is whitespace only,
      which is what `!text.trim()` tests in JavaScript. */
  lemma TrimEmptyIffWhitespace(s: string)
    ensures Trim(s) == [] <==> AllWhitespace(s)
  {
    var r := Trim(s);
    if r != [] {
      assert s[LeadingSpace(s)] == r[0];
    }
  }

  /** `s.startsWith(prefix)`. */
  predicate StartsWith(s: string, prefix: string) {
    |prefix| <= |s| && s[..|prefix|] == prefix
  }

  /** `sub` occurs in `s` starting at index `k`. */
  predicate OccursAt(s: string, sub: string, k: int) {
    0 <= k <= |s| - |sub| && s[k..k + |sub|] == sub
  }

  /** The first index at or after `from` where `sub` occurs in `s`
      (`s.indexOf(sub, from)`, with `None` for -1). */
  function IndexOfFrom(s: string, sub: string, from: nat): (r: Option<nat>)
    requires from <= |s|
    ensures r.Some? ==> from <= r.value && OccursAt(s, sub, r.value)
    ensures forall k :: from <= k && (r.None? || k < r.value) ==> !OccursAt(s, sub, k)
    decreases |s| - from
  {
    if |s| - from < |sub| then None
    else if s[from..from + |sub|] == sub then Some(from)
    else if from == |s| then None
    else IndexOfFrom(s, sub, from + 1)
  }

  /** `s.includes(sub)`. */
  predicate Contains(s: string, sub: string) {
    IndexOfFrom(s, sub, 0).Some?
  }

  /** Joins `parts`, putting `sep` between consecutive parts (`parts.join(sep)`). */
  function Join(parts: seq<string>, sep: char): string
    requires |parts| > 0
  {
    if |parts| == 1 then parts[0] else parts[0] + [sep] + Join(parts[1..], sep)
  }

  /** `s.split(sep)` for a one-character separator: the pieces between
      separators, always at least one, none containing `sep`. */
  function Split(s: string, sep: char): (parts: seq<string>)
    ensures |parts| >= 1
    ensures forall p :: p in parts ==> sep !in p
  {
    if |s| == 0 then [[]]
    else if s[0] == sep then [[]] + Split(s[1..], sep)
    else
      var rest := Split(s[1..], sep);
      assert rest[0] in rest;
      [[s[0]] + rest[0]] + rest[1..]
  }

  /** Joining the pieces back with the separator gives the original string:
      `split` loses nothing and invents nothing. */
  lemma {:induction false} SplitJoin(s: string, sep: char)
    ensures Join(Split(s, sep), sep) == s
    decreases |s|
  {
    if |s| == 0 {
    } else if s[0] == sep {
      SplitJoin(s[1..], sep);
      assert s == [sep] + s[1..];
    } else {
      var rest := Split(s[1..], sep);
      SplitJoin(s[1..], sep);
      if |rest| == 1 {
        assert s == [s[0]] + s[1..];
      } else {
        assert Join(rest, sep) == rest[0] + [sep] + Join(rest[1..], sep);
        assert s == [s[0]] + s[1..];
      }
    }
  }

  /** A string without the separator splits into itself alone. */
  lemma {:induction false} SplitNoSeparator(s: string, sep: char)
    requires sep !in s
    ensures Split(s, sep) == [s]
    decreases |s|
  {
    if |s| > 0 {
      assert sep !in s[1..] by {
        forall k | 0 <= k < |s| - 1 ensures s[1..][k] != sep { assert s[1..][k] == s[k + 1]; }
      }
      SplitNoSeparator(s[1..], sep);
      assert s == [s[0]] + s[1..];
    }
  }

  /** Splitting `a + [sep] + b` is splitting `a` and `b` separately. */
  lemma {:induction false} SplitAppend(a: string, b: string, sep: char)
    requires sep !in a
    ensures Split(a + [sep] + b, sep) == [a] + Split(b, sep)
    decreases |a|
  {
    if |a| == 0 {
      assert a + [sep] + b == [sep] + b;
      assert ([sep] + b)[1..] == b;
    } else {
      var s := a + [sep] + b;
      assert s[0] == a[0] && s[1..] == a[1..] + [sep] + b;
      assert sep !in a[1..] by {
        forall k | 0 <= k < |a| - 1 ensures a[1..][k] != sep { assert a[1..][k] == a[k + 1]; }
      }
      SplitAppend(a[1..], b, sep);
      assert a == [a[0]] + a[1..];
    }
  }

  /** The concatenation of a sequence of strings. */
  function Concat(parts: seq<string>): string {
    if |parts| == 0 then [] else parts[0] + Concat(parts[1..])
  }

  predicate IsDigit(c: char) {
    '0' <= c <= '9'
  }

  function DigitValue(c: char): nat
    requires IsDigit(c)
  {
    c as int - '0' as int
  }

  /** The decimal value of a string of digits. */
  function DigitsValue(s: string): nat
    requires forall i :: 0 <= i < |s| ==> IsDigit(s[i])
  {
    if |s| == 0 then 0
    else DigitsValue(s[..|s| - 1]) * 10 + DigitValue(s[|s| - 1])
  }

  /** The decimal rendering of `n` (`${n}` in a template literal):
      digits only, no leading zero, and it denotes `n`. */
  function NatToString(n: nat): (r: string)
    ensures |r| >= 1 && forall i :: 0 <= i < |r| ==> IsDigit(r[i])
    ensures |r| > 1 ==> r[0] != '0'
    ensures n < 10 <==> |r| == 1
    ensures DigitsValue(r) == n
  {
    var d := [('0' as int + n % 10) as char];
    if n < 10 then d
    else
      var p := NatToString(n / 10);
      var r := p + d;
      assert r[..|r| - 1] == p;
      r
  }
}

=== FILE: usage_gate.dfy ===
/**
 * The usage gate of the chat front-end: a count of completed requests,
 * a cooldown that starts when the count reaches the limit, a one-second
 * countdown that ends the cooldown, and a password that lifts the limit
 * for the rest of the session. Clock readings are passed in as `now`
 * (milliseconds since the epoch).
 */
module UsageGate {
  import opened Wrappers
  import opened Text

  const PASSWORD: string := "luis"
  const MESSAGE_LIMIT: nat := 5
  const COOLDOWN_MINUTES: nat := 30
  const COOLDOWN_MS: nat := COOLDOWN_MINUTES * 60 * 1000

  /** `messageCount`, `isUnlocked` and `cooldownEndTime` (null is `None`). */
  datatype GateState = GateState(count: nat, unlocked: bool, cooldownEnd: Option<nat>)

  const Initial: GateState := GateState(0, false, None)

  /** A session starts with nothing counted, no cooldown and the limit in force. */
  lemma InitialInv()
    ensures Inv(Initial) && !Initial.unlocked && Initial.count == 0
  {
  }

  /** Sends are refused while a cooldown is set, still in the future and
      the limit has not been lifted; a cooldown ending exactly at `now` is over. */
  predicate IsLocked(g: GateState, now: nat) {
    !g.unlocked && g.cooldownEnd.Some? && g.cooldownEnd.value > now
  }

  /** The early-return guard of a send: not locked and no reply pending. */
  predicate SendAllowed(g: GateState, aiResponding: bool, now: nat) {
    !IsLocked(g, now) && !aiResponding
  }

  /** Whole seconds left until `end`, rounded up, never negative:
      `Math.max(0, Math.ceil((end - now) / 1000))`. */
  function TimeLeft(end: nat, now: nat): (r: nat)
    ensures r == 0 <==> end <= now
    ensures r > 0 ==> (r - 1) * 1000 < end - now <= r * 1000
  {
    if end <= now then 0 else (end - now + 999) / 1000
  }

  /** A gate is locked exactly when the countdown it shows is positive. */
  lemma LockedIffCountdownPositive(g: GateState, now: nat)
    requires !g.unlocked && g.cooldownEnd.Some?
    ensures IsLocked(g, now) <==> TimeLeft(g.cooldownEnd.value, now) > 0
  {
  }

  /** The bookkeeping after a completed request (the `finally` block): while
      the limit is in force the count grows by one, and reaching the limit
      starts a cooldown of `COOLDOWN_MS` from `now`. */
  function RecordAttempt(g: GateState, now: nat): (r: GateState)
    ensures g.unlocked ==> r == g
    ensures !g.unlocked ==> r.count == g.count + 1 && !r.unlocked
    ensures !g.unlocked && r.count >= MESSAGE_LIMIT ==> r.cooldownEnd == Some(now + COOLDOWN_MS)
    ensures !g.unlocked && r.count < MESSAGE_LIMIT ==> r.cooldownEnd == g.cooldownEnd
  {
    if g.unlocked then g
    else
      var newCount := g.count + 1;
      if newCount >= MESSAGE_LIMIT then GateState(newCount, false, Some(now + COOLDOWN_MS))
      else g.(count := newCount)
  }

  /** What one firing of the one-second countdown interval produces: the new
      gate and the seconds to display. */
  datatype TickResult = TickResult(gate: GateState, timeLeft: nat)

  /** One firing of the countdown. The interval only runs while a cooldown is
      set and the limit is in force; when the remaining time reaches zero the
      cooldown is cleared and the count starts again from zero. */
  function Tick(g: GateState, now: nat): (r: TickResult)
    ensures !g.unlocked && g.cooldownEnd.Some? && g.cooldownEnd.value <= now
      ==> r == TickResult(g.(count := 0, cooldownEnd := None), 0)
    ensures !(!g.unlocked && g.cooldownEnd.Some? && g.cooldownEnd.value <= now) ==> r.gate == g
    ensures r.timeLeft > 0 <==> IsLocked(g, now)
    ensures !g.unlocked && g.cooldownEnd.Some? ==> r.timeLeft == TimeLeft(g.cooldownEnd.value, now)
  {
    if !g.unlocked && g.cooldownEnd.Some? then
      var remaining := TimeLeft(g.cooldownEnd.value, now);
      if remaining == 0 then TickResult(g.(count := 0, cooldownEnd := None), 0)
      else TickResult(g, remaining)
    else TickResult(g, 0)
  }

  /** A countdown step never changes whether sends are refused at that instant. */
  lemma TickKeepsLock(g: GateState, now: nat)
    ensures IsLocked(Tick(g, now).gate, now) == IsLocked(g, now)
  {
  }

  /** What the unlock dialog reports. */
  datatype UnlockOutcome = Unlocked | WrongPassword | Cancelled

  datatype UnlockResult = UnlockResult(gate: GateState, outcome: UnlockOutcome)

  /** The unlock prompt: `None` is a cancelled dialog. The right password
      lifts the limit whatever the prior state; anything else leaves the gate
      as it was. */
  function Unlock(g: GateState, input: Option<string>): (r: UnlockResult)
    ensures input == Some(PASSWORD) ==> r == UnlockResult(GateState(0, true, None), Unlocked)
    ensures input == None ==> r == UnlockResult(g, Cancelled)
    ensures input.Some? && input.value != PASSWORD ==> r == UnlockResult(g, WrongPassword)
    ensures forall now :: !IsLocked(r.gate, now) || r.gate == g
  {
    if input == Some(PASSWORD) then UnlockResult(GateState(0, true, None), Unlocked)
    else if input.Some? then UnlockResult(g, WrongPassword)
    else UnlockResult(g, Cancelled)
  }

  /** Once unlocked, no send is ever refused and recording an attempt changes nothing. */
  lemma UnlockedNeverLocks(g: GateState, input: Option<string>, now: nat)
    requires input == Some(PASSWORD)
    ensures !IsLocked(Unlock(g, input).gate, now)
    ensures RecordAttempt(Unlock(g, input).gate, now) == Unlock(g, input).gate
  {
  }

  /** The attempt that reaches the limit locks the gate for exactly the
      cooldown: at every instant before `now + COOLDOWN_MS`, and not at it. */
  lemma LimitStartsCooldown(g: GateState, now: nat, t: nat)
    requires !g.unlocked && g.count + 1 == MESSAGE_LIMIT
    ensures now <= t < now + COOLDOWN_MS ==> IsLocked(RecordAttempt(g, now), t)
    ensures t >= now + COOLDOWN_MS ==> !IsLocked(RecordAttempt(g, now), t)
  {
  }

  /** The states the gate can be in: unlocked with nothing counted, or
      below the limit with no cooldown, or at the limit with a cooldown set. */
  predicate Inv(g: GateState) {
    if g.unlocked then g.count == 0 && g.cooldownEnd.None?
    else
      || (g.count < MESSAGE_LIMIT && g.cooldownEnd.None?)
      || (g.count == MESSAGE_LIMIT && g.cooldownEnd.Some?)
  }

  /** An expired cooldown that the countdown has not yet cleared. */
  predicate PendingExpiry(g: GateState, now: nat) {
    !g.unlocked && g.cooldownEnd.Some? && g.cooldownEnd.value <= now
  }

  /** As written, an attempt admitted by the lock check keeps the gate in
      its invariant only if the countdown has already cleared an expired
      cooldown. */
  lemma RecordAttemptKeepsInv(g: GateState, now: nat)
    requires Inv(g) && !IsLocked(g, now) && !PendingExpiry(g, now)
    ensures Inv(RecordAttempt(g, now))
  {
  }

  /** The lock check compares the cooldown end with `now`, but only the
      countdown resets the count. A send that lands after the cooldown ended
      and before the next one-second tick is admitted with the count still at
      the limit, and recording it pushes the count past the limit. */
  lemma StaleWindowExceedsLimit()
    ensures var g := GateState(MESSAGE_LIMIT, false, Some(COOLDOWN_MS));
      && Inv(g) && !IsLocked(g, COOLDOWN_MS)
      && RecordAttempt(g, COOLDOWN_MS).count == MESSAGE_LIMIT + 1
      && !Inv(RecordAttempt(g, COOLDOWN_MS))
  {
  }

  /** Clears an expired cooldown before anything else looks at the gate:
      the countdown's reset applied at `now`. */
  function Expire(g: GateState, now: nat): (r: GateState)
    ensures !PendingExpiry(r, now)
    ensures IsLocked(r, now) == IsLocked(g, now)
    ensures PendingExpiry(g, now) ==> r == g.(count := 0, cooldownEnd := None)
    ensures !PendingExpiry(g, now) ==> r == g
  {
    Tick(g, now).gate
  }

  /** The attempt bookkeeping with the intended reset: an expired cooldown is
      cleared first, so the attempt is never counted against a stale window. */
  function RecordAttemptFresh(g: GateState, now: nat): (r: GateState)
    ensures Inv(g) && !IsLocked(g, now) ==> Inv(r)
    ensures !PendingExpiry(g, now) ==> r == RecordAttempt(g, now)
    ensures PendingExpiry(g, now) ==> r == GateState(1, false, None)
  {
    RecordAttempt(Expire(g, now), now)
  }

  /** The steps of a session as far as the gate is concerned. */
  datatype GateEvent =
    | Attempt(at: nat)          // a send admitted by the guard and completed at `at`
    | CountdownTick(at: nat)    // one firing of the countdown interval
    | UnlockPrompt(input: Option<string>)

  /** One step with the corrected bookkeeping; a refused send changes nothing. */
  function Step(g: GateState, e: GateEvent): GateState {
    match e
    case Attempt(at) => if IsLocked(g, at) then g else RecordAttemptFresh(g, at)
    case CountdownTick(at) => Tick(g, at).gate
    case UnlockPrompt(input) => Unlock(g, input).gate
  }

  function Run(g: GateState, events: seq<GateEvent>): GateState
    decreases |events|
  {
    if |events| == 0 then g else Run(Step(g, events[0]), events[1..])
  }

  /** With the corrected bookkeeping, every session keeps the gate in its
      invariant, so the count never exceeds the limit while the limit is in
      force. The bookkeeping as written does not have this property
      (`StaleWindowExceedsLimit`). Every session starts from `Initial`,
      which is inside the invariant (`InitialInv`). */
  lemma {:induction false} RunKeepsInv(g: GateState, events: seq<GateEvent>)
    requires Inv(g)
    ensures Inv(Run(g, events))
    ensures !Run(g, events).unlocked ==> Run(g, events).count <= MESSAGE_LIMIT
    decreases |events|
  {
    if |events| > 0 {
      var g' := Step(g, events[0]);
      assert Inv(g');
      RunKeepsInv(g', events[1..]);
    }
  }

  /** Seconds below a minute, left-padded with `0` to two digits. */
  function PadSeconds(n: nat): (r: string)
    requires n < 60
    ensures |r| == 2 && IsDigit(r[0]) && IsDigit(r[1])
    ensures DigitValue(r[0]) < 6 && DigitValue(r[0]) * 10 + DigitValue(r[1]) == n
  {
    var d := NatToString(n);
    if n < 10 then
      assert DigitsValue(d) == DigitValue(d[0]) by {
        assert d[..0] == [];
      }
      "0" + d
    else
      assert d[..1] == [d[0]];
      d
  }

  /** `formatTimeLeft`: `"0:00"` for no time; otherwise minutes, a colon and
      two-digit seconds that together denote `seconds`. */
  function FormatTimeLeft(seconds: int): (r: string)
    ensures seconds <= 0 ==> r == "0:00"
    ensures seconds > 0 ==>
      && |r| >= 4 && r[|r| - 3] == ':'
      && (forall i :: 0 <= i < |r| - 3 ==> IsDigit(r[i]))
      && IsDigit(r[|r| - 2]) && IsDigit(r[|r| - 1])
      && (|r| > 4 ==> r[0] != '0')
      && DigitValue(r[|r| - 2]) < 6
      && DigitsValue(r[..|r| - 3]) * 60
         + DigitValue(r[|r| - 2]) * 10 + DigitValue(r[|r| - 1]) == seconds
  {
    if seconds <= 0 then "0:00"
    else
      var m := NatToString(seconds / 60);
      var ss := PadSeconds(seconds % 60);
      var r := m + ":" + ss;
      assert r[..|r| - 3] == m;
      assert r[|r| - 2] == ss[0] && r[|r| - 1] == ss[1];
      r
  }
}

=== FILE: wrappers.dfy ===
/** Option and Result datatypes shared by the whole model. */
module Wrappers {

  /** An optional value: JavaScript's `null`/`undefined` versus a present value. */
  datatype Option<+T> = None | Some(value: T) {

    /** The wrapped value, or `default` when there is none. */
    function GetOr(default: T): T {
      match this
      case Some(v) => v
      case None => default
    }
  }

  /** The outcome of an operation that can fail with an error value. */
  datatype Result<+R, +E> = Success(value: R) | Failure(error: E)
}
